=== FILE: README.md ===
# Bedrock demo scripts: tool calling and permission setup, modelled in Dafny

This project models the two pieces of real logic in the Bedrock demo
repository:

- **The CPF tool-calling round trip** (`extra_tooling.py`). The CPF tool
  keeps only the digits of a Brazilian CPF number. It looks the raw input up
  first and the digits second, in a fixed demonstration database, and
  otherwise answers "CPF … not found in database". `invoke_model_with_tools`
  sends one request. If the model stops with `tool_use`, it appends the
  assistant's blocks verbatim. It then appends one user message holding a
  `tool_result` per `cpf_to_username` tool use, in order, and makes exactly
  one more call. The answer is the concatenated text of the last response.
  Any failure gives `None`.
- **The permissions script** (`aws-setup/apply_bedrock_permissions.py`).
  This covers the policy document it writes and how it finds the IAM user
  name: from `iam get-user`, or else from the tail of a user ARN after its
  last `/`. It also covers the order of the script's steps and its exit status.

Modules:

- `Wrappers` (`wrappers.dfy`): `Option`, standing for Python's `None`.
- `Cpf` (`cpf.dfy`): normalisation, the database, and the lookup.
- `ToolCalling` (`tool_calling.dfy`): content blocks, messages and requests,
  tool results, the final text, and the round trip. The model endpoint is a
  parameter `Request -> Option<Response>`. `None` stands for any exception
  raised by the call or by decoding its body.
- `Permissions` (`permissions.dfy`): the policy document, `str.split`,
  substring tests, user-name lookup, and `Main` over an `Environment`.
  The `Environment` records the outcome of every CLI call whose outcome the
  script acts on, of the policy file write and of the access test. It also records the uncaught exceptions
  that stop the script: an unreadable `get-user` reply, a failed file write,
  and a failure while listing the applied policies.

The database keys are written `Formatted("123", "456", "789", "00")` and
`Bare("123", "456", "789", "00")`. `Cpf.DatabaseKeysAsWritten` proves that
they are the literal strings `"123.456.789-00"` and `"12345678900"` of the
source.

The round trip silently skips tool uses that name any other tool. It does
not turn a failure inside the CPF tool into a tool-result string. A `cpf`
argument that is not a string makes the tool raise, and any exception in the
round trip makes the function return `None`.

## Model

| member | source | states |
|---|---|---|
| Cpf.Normalize | extra_tooling.py:33-34 | the normal form is never longer than the input |
| Cpf.NormalizeAllDigits | extra_tooling.py:34 | the normal form consists of digits only |
| Cpf.NormalizeKeepsDigits | extra_tooling.py:34 | each digit occurs in the normal form exactly as often as in the input; no other character occurs |
| Cpf.NormalizeAppend | extra_tooling.py:34 | normalisation distributes over concatenation, so the digits keep their original order |
| Cpf.NormalizeChar | extra_tooling.py:34 | a single character is kept if and only if it is a digit |
| Cpf.NormalizeDigits | extra_tooling.py:34 | a string of digits is its own normal form |
| Cpf.NormalizeIdempotent | extra_tooling.py:34 | normalising twice equals normalising once |
| Cpf.NotFoundMessage | extra_tooling.py:41-42 | the miss message is "CPF " followed by the raw, un-normalised input |
| Cpf.Resolve | extra_tooling.py:36-42 | an exact key wins; the normalised key is consulted only when the raw input is not a key; otherwise the not-found message |
| Cpf.CpfToUsername | extra_tooling.py:22-42 | the CPF tool is this lookup in the demonstration database, with the same three cases |
| Cpf.ResolveByNormalForm | extra_tooling.py:36-42 | in a database where each key's digits are a key with the same name, the lookup depends only on the input's digits |
| Cpf.DatabaseKeysAsWritten | extra_tooling.py:10-19 | the eight database keys are the source's literal CPF strings |
| Cpf.CpfDatabaseConsistent | extra_tooling.py:10-19 | every formatted key's digits are also a key, mapped to the same name |
| Cpf.SameDigitsSameName | extra_tooling.py:10-42 | two inputs with the same stored digits resolve to the same name, e.g. "123.456.789-00" and "12345678900" |
| Cpf.FoundIffDigitsStored | extra_tooling.py:36-42 | the tool returns a stored name exactly when the input's digits are a stored CPF; otherwise it returns the not-found message |
| Cpf.DemonstrationLookups | extra_tooling.py:10-42 | the formatted and the bare CPF of João da Silva both give his name; "999.999.999-99" gives the not-found message carrying the dots and dash |
| ToolCalling.FirstRequest | extra_tooling.py:56-93 | the first request declares only the CPF tool, asks for at most 500 tokens, and carries the user's question as one plain user message |
| ToolCalling.CpfArgument | extra_tooling.py:134-135 | the `cpf` argument, or "" when it is absent; no value exactly when the argument is present but not a string, on which the CPF tool raises |
| ToolCalling.Execute | extra_tooling.py:133-143 | a tool result carries its tool use's id and the CPF tool's answer for the `cpf` argument |
| ToolCalling.CpfToolUses | extra_tooling.py:122-133 | a block is selected if and only if it is in the response and is a tool use named `cpf_to_username` |
| ToolCalling.CpfToolUsesAppend | extra_tooling.py:122-133 | the selection of a concatenation is the selections of its parts, in order |
| ToolCalling.CpfToolUsesBlock | extra_tooling.py:123-133 | a single block is selected exactly when it is a CPF tool use |
| ToolCalling.ToolResults | extra_tooling.py:121-143 | every result is a tool result answering an id of a tool use in the response; no CPF tool use means no results |
| ToolCalling.ToolResultsAppend | extra_tooling.py:121-143 | results are produced block by block, so their order follows the response's order |
| ToolCalling.ToolResultsMatchCpfUses | extra_tooling.py:121-143 | the results are one-to-one and in order with the `cpf_to_username` tool uses; the i-th result carries the i-th use's id and answer |
| ToolCalling.ToolsRunAppend | extra_tooling.py:122-135 | the tools of a concatenation run without raising exactly when those of both parts do |
| ToolCalling.EveryCpfUseAnswered | extra_tooling.py:121-143 | each `cpf_to_username` tool use in the response has its result among the tool results |
| ToolCalling.ResultIdsDistinct | extra_tooling.py:121-143 | if the response's tool-use ids are distinct, no two results answer the same id |
| ToolCalling.FinalText | extra_tooling.py:164-170 | with no text block the answer is ""; each text block's text fits within the answer |
| ToolCalling.FinalTextAppend | extra_tooling.py:164-170 | the answer concatenates the text blocks in their order |
| ToolCalling.FinalTextBlock | extra_tooling.py:166-168 | a text block contributes its text; any other block contributes nothing |
| ToolCalling.SecondRequest | extra_tooling.py:113-152 | the second conversation is the first one extended by exactly two messages |
| ToolCalling.InvokeModelWithTools | extra_tooling.py:95-174 | one or two calls are made, starting with the first request; a second call happens if and only if the first succeeded with stop reason `tool_use` and every CPF tool use has a string argument; the answer exists if and only if every call made succeeded and no tool raised |
| ToolCalling.SingleCallWithoutToolUse | extra_tooling.py:106-109 | without `tool_use` exactly one call is made, the messages are unchanged, and the answer is the first response's text |
| ToolCalling.ToolUseRoundTrip | extra_tooling.py:109-162 | with `tool_use`, exactly one more call is made. Its request differs from the first only in its messages: the assistant's blocks verbatim, then one user message with all tool results. The second response is final whatever its stop reason |
| ToolCalling.ToolFailureMeansNone | extra_tooling.py:133-135 | a CPF tool use with a non-string argument ends the round trip after one call with `None` |
| ToolCalling.FailureMeansNone | extra_tooling.py:95-174 | a failing first call ends the round trip with no second call and `None`; the answer is `None` exactly when the last call made failed or the tools raised after a `tool_use` stop |
| ToolCalling.CpfScenario | extra_tooling.py:109-170 | a single CPF tool use followed by a text reply gives two calls, a tool result for the use's id with the looked-up name, and the reply's text as the answer |
| Permissions.BedrockPolicyShape | aws-setup/apply_bedrock_permissions.py:19-37 | version "2012-10-17", exactly two Allow statements on resource "*", for `bedrock:*` and `bedrock-runtime:*` |
| Permissions.Split | aws-setup/apply_bedrock_permissions.py:104 | a split has at least one piece and no piece contains the separator |
| Permissions.Join | aws-setup/apply_bedrock_permissions.py:104 | a join of n pieces has at least n - 1 characters: the separators between consecutive pieces |
| Permissions.JoinSplit | aws-setup/apply_bedrock_permissions.py:104 | joining the pieces of a split gives back the string |
| Permissions.SplitJoin | aws-setup/apply_bedrock_permissions.py:104 | splitting a join of separator-free pieces gives back the pieces |
| Permissions.LastPieceIsTail | aws-setup/apply_bedrock_permissions.py:104 | `split('/')[-1]` is the separator-free suffix after the last separator, or the whole string when there is none |
| Permissions.ArnUsername | aws-setup/apply_bedrock_permissions.py:100-106 | a name is extracted if and only if the ARN contains `/user/` or `:user/` |
| Permissions.ArnUsernameIsTail | aws-setup/apply_bedrock_permissions.py:102-106 | an extracted name contains no `/`, is shorter than the ARN, ends it, and follows a `/` |
| Permissions.ArnExamples | aws-setup/apply_bedrock_permissions.py:102-104 | a user ARN of the form `arn:aws:iam::<account>:user/<name>` yields its name; an ARN with a path yields its last segment |
| Permissions.GetUsername | aws-setup/apply_bedrock_permissions.py:82-108 | a successful `get-user` answer is used as is; otherwise a name is found only from the fallback identity's user ARN |
| Permissions.NoUsername | aws-setup/apply_bedrock_permissions.py:96-108 | after a failed `get-user`, a missing identity, a missing `Arn` or a non-user ARN gives no name |
| Permissions.FallbackUsernameIsArnTail | aws-setup/apply_bedrock_permissions.py:99-106 | a name recovered from the identity is the ARN's name: it contains no `/`, ends the ARN, and directly follows its last `/` |
| Permissions.SummaryOf | aws-setup/apply_bedrock_permissions.py:279-286 | the summary is "verified" exactly for a passed test, the propagation warning exactly for a failed one, and "inconclusive" exactly when there is no result |
| Permissions.EnvUsername | aws-setup/apply_bedrock_permissions.py:82-108 | a readable `get-user` name is the user name; after a failed `get-user` call the name comes from the fallback identity |
| Permissions.UsernameSteps | aws-setup/apply_bedrock_permissions.py:84-99 | the lookup makes at most one call after `get-user`, the second identity call, and makes it exactly when the `get-user` call fails, not when its reply cannot be read |
| Permissions.Main | aws-setup/apply_bedrock_permissions.py:229-287 | the run starts by checking the CLI, exits with 0 or 1, and prints a summary exactly when it exits with 0 |
| Permissions.EarlyFailureDoesNoPolicyWork | aws-setup/apply_bedrock_permissions.py:233-248 | if the CLI check, the identity lookup or the user-name step fails (including an unreadable `get-user` reply), the script exits 1 at that step: the run holds only lookup steps, so nothing is saved, applied, verified or tested |
| Permissions.UnsavedPolicyAppliesNothing | aws-setup/apply_bedrock_permissions.py:250-253 | a failed policy file write (in `save_policy_to_file`, lines 110-114, uncaught in `main`) ends the script with status 1 right after the save step, and neither attempt runs |
| Permissions.BothPolicyAttemptsRun | aws-setup/apply_bedrock_permissions.py:250-259 | once the user is known and the policy file is saved, the managed and the inline attempts both run for that user, in that order |
| Permissions.BothAttemptsFailedStops | aws-setup/apply_bedrock_permissions.py:255-267 | when both policy attempts fail, the script exits 1 right after the inline attempt, with no verify step, no access test and no summary |
| Permissions.ExitStatus | aws-setup/apply_bedrock_permissions.py:233-270 | the exit status is 1 exactly when an early step fails, the policy file write fails, both policy attempts fail, or listing the applied policies raises |
| Permissions.VerifyFailureAfterApply | aws-setup/apply_bedrock_permissions.py:161-195 | an exception while listing the applied policies ends the script with status 1 after the verify step and with no summary |
| Permissions.SuccessfulRunSummary | aws-setup/apply_bedrock_permissions.py:269-286 | a successful run saved the policy, had at least one policy applied and listed the policies, ends with the access test, and reports its tri-state outcome |

## Left out

- All I/O is left out: the boto3 client, JSON encoding and decoding, `print` output, `subprocess` calls to the AWS CLI, the policy file write and the access-test child process. Only their outcomes enter the model, as the endpoint function and the `Environment` fields (`policySaved` for the file write).
- `Cpf.IsDigit`: Python's `str.isdigit` also accepts non-ASCII digits such as superscripts and other scripts' digits; the model accepts only ASCII `'0'..'9'`.
- Tool input values other than strings are collapsed into one `JsonOther` value: the CPF tool raises on every one of them, so their kind does not matter.
- A content block missing its `id` or `text` field (read with `.get`) is not modelled; every modelled block carries its fields.
- `verify_policy_applied` enters only as whether it completes (`verifyCompleted`); the policy names it prints are not modelled.
- Uncaught exceptions enter only at the points named by the `Environment`: an unreadable `get-user` reply, the file write and the policy listing. Exceptions that a well-formed CLI reply cannot cause, such as a caller identity that is JSON but not an object, are not modelled.
- The printed account id, ARN and sample output lines are not modelled.
- Not modelled because they hold no logic of their own: `similarity.py` (floating-point cosine similarity), the image and text generation scripts (single SDK calls, base64 decoding, file saves) and the interactive chat loop in `historical.py`.

=== FILE: cpf.dfy ===
/**
 * The CPF-to-name tool of the tool-calling demo: digit normalisation of a
 * Brazilian CPF number and its lookup in a fixed demonstration database.
 */
module Cpf {

  /** A decimal digit. Only ASCII '0'..'9' are digits in this model. */
  predicate IsDigit(c: char) {
    '0' <= c <= '9'
  }

  predicate AllDigits(s: string) {
    forall i :: 0 <= i < |s| ==> IsDigit(s[i])
  }

  /** The input with every non-digit character removed. */
  function Normalize(s: string): (r: string)
    ensures |r| <= |s|
  {
    if |s| == 0 then ""
    else if IsDigit(s[0]) then [s[0]] + Normalize(s[1..])
    else Normalize(s[1..])
  }

  /** The normal form consists of digits only. */
  lemma {:induction false} NormalizeAllDigits(s: string)
    ensures AllDigits(Normalize(s))
  {
    if |s| > 0 {
      NormalizeAllDigits(s[1..]);
    }
  }

  /** Every digit occurs in the normal form as often as in the input; nothing else occurs in it. */
  lemma {:induction false} NormalizeKeepsDigits(s: string)
    ensures forall c :: IsDigit(c) ==> multiset(Normalize(s))[c] == multiset(s)[c]
    ensures forall c :: !IsDigit(c) ==> multiset(Normalize(s))[c] == 0
  {
    if |s| > 0 {
      assert s == [s[0]] + s[1..];
      NormalizeKeepsDigits(s[1..]);
    }
  }

  /** Normalisation works character by character, so it distributes over concatenation. */
  lemma {:induction false} NormalizeAppend(a: string, b: string)
    ensures Normalize(a + b) == Normalize(a) + Normalize(b)
    decreases |a|
  {
    if |a| == 0 {
      assert a + b == b;
    } else {
      assert (a + b)[1..] == a[1..] + b;
      assert (a + b)[0] == a[0];
      NormalizeAppend(a[1..], b);
    }
  }

  /** On a single character normalisation keeps exactly the digits. */
  lemma NormalizeChar(c: char)
    ensures Normalize([c]) == if IsDigit(c) then [c] else []
  {
    assert [c][1..] == [];
  }

  /** A string of digits only is its own normal form. */
  lemma {:induction false} NormalizeDigits(s: string)
    requires AllDigits(s)
    ensures Normalize(s) == s
  {
    if |s| > 0 {
      NormalizeDigits(s[1..]);
    }
  }

  /** Normalising twice is the same as normalising once. */
  lemma NormalizeIdempotent(s: string)
    ensures Normalize(Normalize(s)) == Normalize(s)
  {
    NormalizeAllDigits(s);
    NormalizeDigits(Normalize(s));
  }

  /** The answer returned when neither the raw nor the normalised CPF is a key. */
  function NotFoundMessage(cpf: string): (m: string)
    ensures |m| == |cpf| + 26
    ensures m[..4] == "CPF " && m[4..4 + |cpf|] == cpf
  {
    "CPF " + cpf + " not found in database"
  }

  /**
   * Lookup in an arbitrary database: the raw input is tried as a key first,
   * then its normalised form, and a miss yields the not-found message built
   * from the raw input.
   */
  function Resolve(db: map<string, string>, cpf: string): (r: string)
    ensures cpf in db ==> r == db[cpf]
    ensures cpf !in db && Normalize(cpf) in db ==> r == db[Normalize(cpf)]
    ensures cpf !in db && Normalize(cpf) !in db ==> r == NotFoundMessage(cpf)
  {
    if cpf in db then db[cpf]
    else if Normalize(cpf) in db then db[Normalize(cpf)]
    else NotFoundMessage(cpf)
  }

  /**
   * A database in which every key's normal form is also a key with the same
   * name: formatted entries are backed by their unformatted twin.
   */
  ghost predicate Consistent(db: map<string, string>) {
    forall k :: k in db ==> Normalize(k) in db && db[Normalize(k)] == db[k]
  }

  /**
   * In a consistent database the two-step lookup is the same as a lookup of
   * the normal form alone, so the result depends only on the digits of the input.
   */
  lemma ResolveByNormalForm(db: map<string, string>, cpf: string)
    requires Consistent(db)
    ensures Normalize(cpf) in db ==> Resolve(db, cpf) == db[Normalize(cpf)]
    ensures Normalize(cpf) !in db ==> Resolve(db, cpf) == NotFoundMessage(cpf)
  {
    if cpf in db {
      assert Normalize(cpf) in db && db[Normalize(cpf)] == db[cpf];
    }
  }

  /** A CPF in its usual printed layout `ddd.ddd.ddd-dd`. */
  function Formatted(a: string, b: string, c: string, d: string): (s: string)
    ensures |s| == |a| + |b| + |c| + |d| + 3
    ensures s[..|a|] == a && s[|a|] == '.'
  {
    a + "." + b + "." + c + "-" + d
  }

  /** The same CPF as bare digits, e.g. "12345678900". */
  function Bare(a: string, b: string, c: string, d: string): (s: string)
    ensures |s| == |a| + |b| + |c| + |d|
    ensures s[..|a|] == a
  {
    a + b + c + d
  }

  /**
   * The demonstration database. Each person is stored twice: under the
   * formatted CPF (e.g. "123.456.789-00") and under its bare digits.
   */
  const CpfDatabase: map<string, string> := map[
    Formatted("123", "456", "789", "00") := "João da Silva",
    Formatted("987", "654", "321", "00") := "Maria Santos",
    Formatted("111", "222", "333", "44") := "Pedro Oliveira",
    Formatted("555", "666", "777", "88") := "Ana Costa",
    Bare("123", "456", "789", "00") := "João da Silva",
    Bare("987", "654", "321", "00") := "Maria Santos",
    Bare("111", "222", "333", "44") := "Pedro Oliveira",
    Bare("555", "666", "777", "88") := "Ana Costa"
  ]

  /** The tool handler: look a CPF up in the demonstration database. */
  function CpfToUsername(cpf: string): (r: string)
    ensures cpf in CpfDatabase ==> r == CpfDatabase[cpf]
    ensures cpf !in CpfDatabase && Normalize(cpf) in CpfDatabase ==> r == CpfDatabase[Normalize(cpf)]
    ensures cpf !in CpfDatabase && Normalize(cpf) !in CpfDatabase ==> r == NotFoundMessage(cpf)
  {
    Resolve(CpfDatabase, cpf)
  }

  /** A non-digit separator contributes nothing to the normal form. */
  lemma DropSeparator(x: string, c: char, y: string)
    requires !IsDigit(c)
    ensures Normalize(x + [c] + y) == Normalize(x) + Normalize(y)
  {
    NormalizeAppend(x + [c], y);
    NormalizeAppend(x, [c]);
    NormalizeChar(c);
  }

  /** Normal form of a CPF written in the usual `ddd.ddd.ddd-dd` layout. */
  lemma NormalizeFormatted(a: string, b: string, c: string, d: string)
    requires AllDigits(a) && AllDigits(b) && AllDigits(c) && AllDigits(d)
    ensures Normalize(Formatted(a, b, c, d)) == Bare(a, b, c, d)
    ensures Normalize(Bare(a, b, c, d)) == Bare(a, b, c, d)
  {
    NormalizeDigits(a);
    NormalizeDigits(b);
    NormalizeDigits(c);
    NormalizeDigits(d);
    DropSeparator(a + "." + b + "." + c, '-', d);
    DropSeparator(a + "." + b, '.', c);
    DropSeparator(a, '.', b);
    NormalizeAppend(a + b + c, d);
    NormalizeAppend(a + b, c);
    NormalizeAppend(a, b);
  }

  /** The database keys are the source's literal strings. */
  lemma DatabaseKeysAsWritten()
    ensures Formatted("123", "456", "789", "00") == "123.456.789-00"
    ensures Formatted("987", "654", "321", "00") == "987.654.321-00"
    ensures Formatted("111", "222", "333", "44") == "111.222.333-44"
    ensures Formatted("555", "666", "777", "88") == "555.666.777-88"
    ensures Bare("123", "456", "789", "00") == "12345678900"
    ensures Bare("987", "654", "321", "00") == "98765432100"
    ensures Bare("111", "222", "333", "44") == "11122233344"
    ensures Bare("555", "666", "777", "88") == "55566677788"
  {
  }

  /** Every formatted key of the demonstration database has its unformatted twin with the same name. */
  lemma CpfDatabaseConsistent()
    ensures Consistent(CpfDatabase)
  {
    forall k | k in CpfDatabase
      ensures Normalize(k) in CpfDatabase && CpfDatabase[Normalize(k)] == CpfDatabase[k]
    {
      StoredKeyConsistent(k);
    }
  }

  /** A stored key normalises to a stored key with the same name. */
  lemma StoredKeyConsistent(k: string)
    requires k in CpfDatabase
    ensures Normalize(k) in CpfDatabase && CpfDatabase[Normalize(k)] == CpfDatabase[k]
    ensures CpfDatabase[k][0] != 'C'
  {
    if k == Formatted("123", "456", "789", "00") || k == Bare("123", "456", "789", "00") {
      PersonConsistent("123", "456", "789", "00", k);
    } else if k == Formatted("987", "654", "321", "00") || k == Bare("987", "654", "321", "00") {
      PersonConsistent("987", "654", "321", "00", k);
    } else if k == Formatted("111", "222", "333", "44") || k == Bare("111", "222", "333", "44") {
      PersonConsistent("111", "222", "333", "44", k);
    } else {
      PersonConsistent("555", "666", "777", "88", k);
    }
  }

  /** One person's two entries, formatted and bare, both normalise to the bare key. */
  lemma PersonConsistent(a: string, b: string, c: string, d: string, k: string)
    requires AllDigits(a) && AllDigits(b) && AllDigits(c) && AllDigits(d)
    requires k == Formatted(a, b, c, d) || k == Bare(a, b, c, d)
    requires Formatted(a, b, c, d) in CpfDatabase && Bare(a, b, c, d) in CpfDatabase
    requires CpfDatabase[Formatted(a, b, c, d)] == CpfDatabase[Bare(a, b, c, d)]
    ensures Normalize(k) in CpfDatabase && CpfDatabase[Normalize(k)] == CpfDatabase[k]
  {
    NormalizeFormatted(a, b, c, d);
  }

  /**
   * Any two spellings of a stored CPF that share their digits resolve to the
   * same name, e.g. "123.456.789-00" and "12345678900".
   */
  lemma SameDigitsSameName(cpf1: string, cpf2: string)
    requires Normalize(cpf1) == Normalize(cpf2)
    requires Normalize(cpf1) in CpfDatabase
    ensures CpfToUsername(cpf1) == CpfToUsername(cpf2) == CpfDatabase[Normalize(cpf1)]
  {
    CpfDatabaseConsistent();
    ResolveByNormalForm(CpfDatabase, cpf1);
    ResolveByNormalForm(CpfDatabase, cpf2);
  }

  /** The handler finds a name exactly when the digits of the input are a stored CPF. */
  lemma FoundIffDigitsStored(cpf: string)
    ensures CpfToUsername(cpf) in CpfDatabase.Values <==> Normalize(cpf) in CpfDatabase
    ensures Normalize(cpf) !in CpfDatabase ==> CpfToUsername(cpf) == NotFoundMessage(cpf)
  {
    CpfDatabaseConsistent();
    ResolveByNormalForm(CpfDatabase, cpf);
    if Normalize(cpf) !in CpfDatabase {
      var m := NotFoundMessage(cpf);
      forall k | k in CpfDatabase
        ensures CpfDatabase[k] != m
      {
        StoredKeyConsistent(k);
      }
    }
  }

  /** The demonstration queries: a formatted hit, an unformatted hit, and a miss that echoes the raw input. */
  lemma DemonstrationLookups()
    ensures CpfToUsername(Formatted("123", "456", "789", "00")) == "João da Silva"
    ensures CpfToUsername(Bare("123", "456", "789", "00")) == "João da Silva"
    ensures CpfToUsername(Formatted("999", "999", "999", "99"))
         == "CPF " + Formatted("999", "999", "999", "99") + " not found in database"
  {
    NormalizeFormatted("999", "999", "999", "99");
    FoundIffDigitsStored(Formatted("999", "999", "999", "99"));
  }
}

=== FILE: permissions.dfy ===
/**
 * The decision logic of the Bedrock permissions script: the policy document
 * it writes, how it finds the IAM user name (directly, or from the caller
 * identity's ARN), and the order of its steps and its exit status.
 *
 * Every AWS CLI call, the policy file write and the access test are
 * abstracted to their outcomes, supplied in an `Environment`.
 */
module Permissions {
  import opened Wrappers

  // ---------------------------------------------------------------------
  // The policy document
  // ---------------------------------------------------------------------

  datatype Effect = Allow | Deny

  datatype Statement = Statement(effect: Effect, actions: seq<string>, resource: string)

  datatype Policy = Policy(version: string, statements: seq<Statement>)

  const BedrockFullAccessPolicy: Policy := Policy("2012-10-17", [
    Statement(Allow, ["bedrock:*"], "*"),
    Statement(Allow, ["bedrock-runtime:*"], "*")
  ])

  /** The document grants every Bedrock and Bedrock runtime action on every resource, and nothing else. */
  lemma BedrockPolicyShape()
    ensures BedrockFullAccessPolicy.version == "2012-10-17"
    ensures |BedrockFullAccessPolicy.statements| == 2
    ensures forall s :: s in BedrockFullAccessPolicy.statements ==> s.effect == Allow && s.resource == "*"
    ensures BedrockFullAccessPolicy.statements[0].actions == ["bedrock:*"]
    ensures BedrockFullAccessPolicy.statements[1].actions == ["bedrock-runtime:*"]
  {
  }

  // ---------------------------------------------------------------------
  // String splitting, as Python's `str.split(sep)` with an explicit separator
  // ---------------------------------------------------------------------

  /** The pieces between occurrences of `sep`; n separators give n + 1 pieces. */
  function Split(s: string, sep: char): (parts: seq<string>)
    ensures |parts| >= 1
    ensures forall i :: 0 <= i < |parts| ==> sep !in parts[i]
  {
    if |s| == 0 then [""]
    else
      var init := Split(s[..|s| - 1], sep);
      var c := s[|s| - 1];
      if c == sep then init + [""]
      else init[..|init| - 1] + [init[|init| - 1] + [c]]
  }

  /** The pieces glued back together with `sep` between consecutive ones. */
  function Join(parts: seq<string>, sep: char): (s: string)
    requires |parts| >= 1
    ensures |s| >= |parts| - 1
  {
    if |parts| == 1 then parts[0]
    else Join(parts[..|parts| - 1], sep) + [sep] + parts[|parts| - 1]
  }

  /** Appending a piece adds a separator and the piece. */
  lemma JoinSnoc(parts: seq<string>, x: string, sep: char)
    requires |parts| >= 1
    ensures Join(parts + [x], sep) == Join(parts, sep) + [sep] + x
  {
    assert (parts + [x])[..|parts|] == parts;
  }

  /** Appending a character to the last piece appends it to the join. */
  lemma JoinExtendLast(parts: seq<string>, c: char, sep: char)
    requires |parts| >= 1
    ensures Join(parts[..|parts| - 1] + [parts[|parts| - 1] + [c]], sep) == Join(parts, sep) + [c]
  {
    var n := |parts|;
    if n > 1 {
      var init := parts[..n - 1];
      JoinSnoc(init, parts[n - 1] + [c], sep);
      JoinSnoc(init, parts[n - 1], sep);
      assert parts == init + [parts[n - 1]];
    }
  }

  /** Splitting a string with one more character at its end. */
  lemma SplitSnoc(t: string, c: char, sep: char)
    ensures var init := Split(t, sep);
      Split(t + [c], sep) ==
        if c == sep then init + [""]
        else init[..|init| - 1] + [init[|init| - 1] + [c]]
  {
    assert (t + [c])[..|t|] == t;
  }

  /** Joining the pieces of a split gives back the original string. */
  lemma {:induction false} JoinSplit(s: string, sep: char)
    ensures Join(Split(s, sep), sep) == s
  {
    if |s| > 0 {
      var t := s[..|s| - 1];
      var c := s[|s| - 1];
      assert s == t + [c];
      JoinSplit(t, sep);
      SplitSnoc(t, c, sep);
      var init := Split(t, sep);
      if c == sep {
        JoinSnoc(init, "", sep);
      } else {
        JoinExtendLast(init, c, sep);
      }
    }
  }

  /** Appending an empty piece to a join that splits back appends a separator to the string. */
  lemma SplitJoinEmptyLast(init: seq<string>, sep: char)
    requires |init| >= 1
    requires Split(Join(init, sep), sep) == init
    ensures Split(Join(init + [""], sep), sep) == init + [""]
  {
    JoinSnoc(init, "", sep);
    assert Join(init + [""], sep) == Join(init, sep) + [sep];
    SplitSnoc(Join(init, sep), sep, sep);
  }

  /** Extending the last piece of a join that splits back by a non-separator extends the string. */
  lemma SplitJoinExtendLast(parts: seq<string>, c: char, sep: char)
    requires |parts| >= 1 && c != sep
    requires Split(Join(parts, sep), sep) == parts
    ensures var longer := parts[..|parts| - 1] + [parts[|parts| - 1] + [c]];
      Split(Join(longer, sep), sep) == longer
  {
    JoinExtendLast(parts, c, sep);
    SplitSnoc(Join(parts, sep), c, sep);
  }

  /** Dropping the last character of the last piece keeps the pieces separator-free. */
  lemma DropLastChar(parts: seq<string>, sep: char)
    requires |parts| >= 1 && |parts[|parts| - 1]| > 0
    requires forall i :: 0 <= i < |parts| ==> sep !in parts[i]
    ensures var last := parts[|parts| - 1];
      var shorter := parts[..|parts| - 1] + [last[..|last| - 1]];
      && (forall i :: 0 <= i < |shorter| ==> sep !in shorter[i])
      && last[|last| - 1] != sep
      && shorter[..|shorter| - 1] + [shorter[|shorter| - 1] + [last[|last| - 1]]] == parts
  {
    var n := |parts|;
    var last := parts[n - 1];
    var shorter := parts[..n - 1] + [last[..|last| - 1]];
    assert shorter[..n - 1] == parts[..n - 1];
    assert last[..|last| - 1] + [last[|last| - 1]] == last;
  }

  /** Splitting a join of separator-free pieces gives back the pieces. */
  lemma {:induction false} SplitJoin(parts: seq<string>, sep: char)
    requires |parts| >= 1
    requires forall i :: 0 <= i < |parts| ==> sep !in parts[i]
    ensures Split(Join(parts, sep), sep) == parts
    decreases |parts|, |parts[|parts| - 1]|, 1
  {
    if |parts[|parts| - 1]| == 0 {
      SplitJoinEndsEmpty(parts, sep);
    } else {
      SplitJoinEndsWithChar(parts, sep);
    }
  }

  /** The case of `SplitJoin` where the last piece is empty. */
  lemma {:induction false} SplitJoinEndsEmpty(parts: seq<string>, sep: char)
    requires |parts| >= 1 && |parts[|parts| - 1]| == 0
    requires forall i :: 0 <= i < |parts| ==> sep !in parts[i]
    ensures Split(Join(parts, sep), sep) == parts
    decreases |parts|, 0, 0
  {
    var n := |parts|;
    if n > 1 {
      var init := parts[..n - 1];
      SplitJoin(init, sep);
      SplitJoinEmptyLast(init, sep);
      assert parts == init + [""];
    }
  }

  /** The case of `SplitJoin` where the last piece ends with a character. */
  lemma {:induction false} SplitJoinEndsWithChar(parts: seq<string>, sep: char)
    requires |parts| >= 1 && |parts[|parts| - 1]| > 0
    requires forall i :: 0 <= i < |parts| ==> sep !in parts[i]
    ensures Split(Join(parts, sep), sep) == parts
    decreases |parts|, |parts[|parts| - 1]|, 0
  {
    var n := |parts|;
    var last := parts[n - 1];
    var shorter := parts[..n - 1] + [last[..|last| - 1]];
    DropLastChar(parts, sep);
    SplitJoin(shorter, sep);
    SplitJoinExtendLast(shorter, last[|last| - 1], sep);
  }

  /** The last piece of a split: what follows the last separator, or the whole string if there is none. */
  function LastPiece(s: string, sep: char): (r: string)
  {
    var parts := Split(s, sep);
    parts[|parts| - 1]
  }

  /**
   * The last piece is a separator-free suffix of the string, and when the
   * string holds a separator the character just before that suffix is one.
   */
  lemma {:induction false} LastPieceIsTail(s: string, sep: char)
    ensures sep !in LastPiece(s, sep)
    ensures |LastPiece(s, sep)| <= |s|
    ensures s[|s| - |LastPiece(s, sep)|..] == LastPiece(s, sep)
    ensures sep in s ==> s[|s| - |LastPiece(s, sep)| - 1] == sep
    ensures sep !in s ==> LastPiece(s, sep) == s
  {
    if |s| > 0 {
      var t := s[..|s| - 1];
      LastPieceIsTail(t, sep);
      var c := s[|s| - 1];
      if c != sep {
        assert LastPiece(s, sep) == LastPiece(t, sep) + [c];
        if sep in s {
          assert sep in t by {
            var k :| 0 <= k < |s| && s[k] == sep;
            assert k < |s| - 1;
            assert t[k] == sep;
          }
        }
      }
    }
  }

  // ---------------------------------------------------------------------
  // The user name
  // ---------------------------------------------------------------------

  /** Python's substring test `sub in s`. */
  predicate Contains(s: string, sub: string) {
    exists i :: 0 <= i <= |s| - |sub| && OccursAt(s, sub, i)
  }

  predicate OccursAt(s: string, sub: string, i: int) {
    0 <= i <= |s| - |sub| && s[i..i + |sub|] == sub
  }

  /** The ARN names an IAM user: it holds `/user/` or `:user/`. */
  predicate IsUserArn(arn: string) {
    Contains(arn, "/user/") || Contains(arn, ":user/")
  }

  /** The user name taken from an ARN: the piece after its last `/`, for user ARNs only. */
  function ArnUsername(arn: string): (r: Option<string>)
    ensures r.Some? <==> IsUserArn(arn)
  {
    if IsUserArn(arn) then Some(LastPiece(arn, '/')) else None
  }

  /** A user ARN contains a `/`: the last character of either marker. */
  lemma UserArnHasSlash(arn: string)
    requires IsUserArn(arn)
    ensures '/' in arn
  {
    var marker := if Contains(arn, "/user/") then "/user/" else ":user/";
    assert marker[5] == '/';
    var i :| 0 <= i <= |arn| - |marker| && OccursAt(arn, marker, i);
    assert arn[i + 5] == arn[i..i + |marker|][5];
  }

  /** A name taken from a user ARN is the ARN's tail after its last `/` and holds no `/`. */
  lemma ArnUsernameIsTail(arn: string)
    requires IsUserArn(arn)
    ensures var name := ArnUsername(arn).value;
      && '/' !in name
      && |name| < |arn|
      && arn[|arn| - |name|..] == name
      && arn[|arn| - |name| - 1] == '/'
  {
    LastPieceIsTail(arn, '/');
    UserArnHasSlash(arn);
  }

  /** A caller identity as the key/value pairs of `sts get-caller-identity`. */
  type Identity = map<string, string>

  /**
   * The user name: the `iam get-user` answer when that call succeeds,
   * otherwise the name in the ARN of a second caller-identity lookup.
   */
  function GetUsername(getUser: Option<string>, fallback: Option<Identity>): (r: Option<string>)
    ensures getUser.Some? ==> r == getUser
    ensures r.Some? && getUser.None? ==>
      fallback.Some? && "Arn" in fallback.value && IsUserArn(fallback.value["Arn"])
  {
    match getUser
    case Some(name) => Some(name)
    case None =>
      if fallback.Some? && |fallback.value| > 0 && "Arn" in fallback.value then
        ArnUsername(fallback.value["Arn"])
      else None
  }

  /** When `get-user` fails, a missing identity, a missing ARN or a non-user ARN gives no name. */
  lemma NoUsername(getUser: Option<string>, fallback: Option<Identity>)
    requires getUser.None?
    requires fallback.None? || "Arn" !in fallback.value || !IsUserArn(fallback.value["Arn"])
    ensures GetUsername(getUser, fallback).None?
  {
  }

  /** A name recovered from the caller identity is the ARN's tail after its last `/`. */
  lemma FallbackUsernameIsArnTail(fallback: Identity)
    requires "Arn" in fallback && IsUserArn(fallback["Arn"])
    ensures GetUsername(None, Some(fallback)) == ArnUsername(fallback["Arn"])
    ensures var name := GetUsername(None, Some(fallback)).value;
      && '/' !in name
      && |name| < |fallback["Arn"]|
      && fallback["Arn"][|fallback["Arn"]| - |name|..] == name
      && fallback["Arn"][|fallback["Arn"]| - |name| - 1] == '/'
  {
    ArnUsernameIsTail(fallback["Arn"]);
  }

  /** The documented ARN form and an ARN with a path both yield the final segment. */
  lemma ArnExamples()
    ensures ArnUsername("arn:aws:iam::123456789012:user/alice") == Some("alice")
    ensures ArnUsername("arn:aws:iam::123456789012:user/division/bob") == Some("bob")
  {
    var a := "arn:aws:iam::123456789012:user/alice";
    assert OccursAt(a, ":user/", 25);
    assert a == Join(["arn:aws:iam::123456789012:user", "alice"], '/');
    SplitJoin(["arn:aws:iam::123456789012:user", "alice"], '/');
    var b := "arn:aws:iam::123456789012:user/division/bob";
    assert OccursAt(b, ":user/", 25);
    assert b == Join(["arn:aws:iam::123456789012:user", "division", "bob"], '/');
    SplitJoin(["arn:aws:iam::123456789012:user", "division", "bob"], '/');
  }

  // ---------------------------------------------------------------------
  // The script's steps and exit status
  // ---------------------------------------------------------------------

  /**
   * The outcome of `iam get-user`: the call failed (caught), its reply could
   * not be read (not JSON, or no `User.UserName`: uncaught), or a user name.
   */
  datatype GetUserOutcome = GetUserFailed | GetUserMalformed | GotUser(name: string)

  /**
   * The outcomes of the script's external calls. `GetUserMalformed`, a false
   * `policySaved` and a false `verifyCompleted` stand for exceptions the
   * script does not catch: each stops the script with status 1 at that step.
   */
  datatype Environment = Environment(
    cliAvailable: bool,           // `aws --version` succeeded
    identity: Option<Identity>,   // first `sts get-caller-identity`; None on failure
    getUser: GetUserOutcome,      // `iam get-user`
    fallback: Option<Identity>,   // second `sts get-caller-identity`, made only when get-user fails
    policySaved: bool,            // the policy file was written
    managedAttached: bool,        // `iam attach-user-policy` succeeded
    inlineApplied: bool,          // `iam put-user-policy` succeeded
    verifyCompleted: bool,        // listing the user's policies raised nothing beyond a failed CLI call
    testResult: Option<bool>)     // access test: passed, failed, or None when it timed out or could not run

  /** The externally visible steps, in the order the script performs them. */
  datatype Step =
    | CheckCli
    | CallerIdentity
    | GetUser
    | SavePolicy
    | AttachManagedPolicy(user: string)
    | PutInlinePolicy(user: string)
    | VerifyPolicies(user: string)
    | TestAccess

  datatype Summary = Verified | PropagationWarning | Inconclusive

  /** What the script did: its steps, its exit status and the summary it printed. */
  datatype Run = Run(steps: seq<Step>, exitCode: nat, summary: Option<Summary>)

  predicate IsPolicyWork(s: Step) {
    s.SavePolicy? || s.AttachManagedPolicy? || s.PutInlinePolicy?
  }

  /** Python truthiness of an identity: present and non-empty. */
  predicate Truthy(identity: Option<Identity>) {
    identity.Some? && |identity.value| > 0
  }

  /** Python truthiness of a user name: present and non-empty. */
  predicate HasName(name: Option<string>) {
    name.Some? && |name.value| > 0
  }

  /** The summary line for the access test's outcome. */
  function SummaryOf(test: Option<bool>): (s: Summary)
    ensures s == Verified <==> test == Some(true)
    ensures s == PropagationWarning <==> test == Some(false)
    ensures s == Inconclusive <==> test.None?
  {
    match test
    case Some(true) => Verified
    case Some(false) => PropagationWarning
    case None => Inconclusive
  }

  /** The user name `get_username` returns, when its `get-user` reply was readable. */
  function EnvUsername(env: Environment): (r: Option<string>)
    ensures env.getUser.GotUser? ==> r == Some(env.getUser.name)
    ensures env.getUser.GetUserFailed? ==> r == GetUsername(None, env.fallback)
  {
    GetUsername(if env.getUser.GotUser? then Some(env.getUser.name) else None, env.fallback)
  }

  /**
   * The steps of the user-name lookup: the second identity call only follows
   * a failed get-user, not one whose reply could not be read.
   */
  function UsernameSteps(env: Environment): (steps: seq<Step>)
    ensures 1 <= |steps| <= 2 && steps[0] == GetUser
    ensures |steps| == 1 <==> !env.getUser.GetUserFailed?
    ensures CallerIdentity in steps <==> env.getUser.GetUserFailed?
    ensures |steps| == 2 ==> steps[1] == CallerIdentity
  {
    if env.getUser.GetUserFailed? then [GetUser, CallerIdentity] else [GetUser]
  }

  /** The whole script run against the given outcomes. */
  function Main(env: Environment): (run: Run)
    ensures run.exitCode == 0 || run.exitCode == 1
    ensures run.summary.Some? <==> run.exitCode == 0
    ensures |run.steps| >= 1 && run.steps[0] == CheckCli
  {
    if !env.cliAvailable then Run([CheckCli], 1, None)
    else if !Truthy(env.identity) then Run([CheckCli, CallerIdentity], 1, None)
    else
      var lookup := [CheckCli, CallerIdentity] + UsernameSteps(env);
      var name := EnvUsername(env);
      if env.getUser.GetUserMalformed? || !HasName(name) then Run(lookup, 1, None)
      else if !env.policySaved then Run(lookup + [SavePolicy], 1, None)
      else
        var user := name.value;
        var policy := lookup + [SavePolicy, AttachManagedPolicy(user), PutInlinePolicy(user)];
        if !env.managedAttached && !env.inlineApplied then Run(policy, 1, None)
        else if !env.verifyCompleted then Run(policy + [VerifyPolicies(user)], 1, None)
        else Run(policy + [VerifyPolicies(user), TestAccess], 0, Some(SummaryOf(env.testResult)))
  }

  /** The preconditions of any policy work: the CLI, the identity and a readable, non-empty user name. */
  predicate ReachesPolicyWork(env: Environment) {
    && env.cliAvailable && Truthy(env.identity) && !env.getUser.GetUserMalformed?
    && HasName(EnvUsername(env))
  }

  /** The policy work succeeds far enough for the script to verify: the file is saved and one attempt succeeds. */
  predicate PolicyApplied(env: Environment) {
    env.policySaved && (env.managedAttached || env.inlineApplied)
  }

  /** A step of the checks before the policy stage: the CLI, the identity and the user name. */
  predicate IsLookupStep(s: Step) {
    s.CheckCli? || s.CallerIdentity? || s.GetUser?
  }

  /**
   * A failure before the policy stage exits with status 1 there: the run
   * holds lookup steps only, so nothing is written, applied, verified or tested.
   */
  lemma EarlyFailureDoesNoPolicyWork(env: Environment)
    requires !ReachesPolicyWork(env)
    ensures Main(env).exitCode == 1
    ensures forall i :: 0 <= i < |Main(env).steps| ==> !IsPolicyWork(Main(env).steps[i])
    ensures forall i :: 0 <= i < |Main(env).steps| ==> IsLookupStep(Main(env).steps[i])
  {
  }

  /** A policy file that cannot be written stops the script with status 1 before either attempt. */
  lemma UnsavedPolicyAppliesNothing(env: Environment)
    requires ReachesPolicyWork(env) && !env.policySaved
    ensures Main(env).exitCode == 1
    ensures Main(env).steps[|Main(env).steps| - 1] == SavePolicy
    ensures forall i :: 0 <= i < |Main(env).steps| ==>
      !Main(env).steps[i].AttachManagedPolicy? && !Main(env).steps[i].PutInlinePolicy?
  {
  }

  /**
   * Once the user is known and the policy file is saved, both attempts run,
   * managed first and inline second, for that user, whatever the first's outcome.
   */
  lemma BothPolicyAttemptsRun(env: Environment)
    requires ReachesPolicyWork(env) && env.policySaved
    ensures var user := EnvUsername(env).value;
      exists k :: 0 <= k && k + 2 < |Main(env).steps| &&
        Main(env).steps[k] == SavePolicy &&
        Main(env).steps[k + 1] == AttachManagedPolicy(user) &&
        Main(env).steps[k + 2] == PutInlinePolicy(user)
  {
    var user := EnvUsername(env).value;
    var lookup := [CheckCli, CallerIdentity] + UsernameSteps(env);
    var policy := lookup + [SavePolicy, AttachManagedPolicy(user), PutInlinePolicy(user)];
    assert Main(env).steps[..|policy|] == policy;
    var k := |lookup|;
    assert policy[k] == SavePolicy && policy[k + 1] == AttachManagedPolicy(user);
    assert policy[k + 2] == PutInlinePolicy(user);
  }

  /** When both attempts fail the script exits with status 1 right after the inline attempt. */
  lemma BothAttemptsFailedStops(env: Environment)
    requires ReachesPolicyWork(env) && env.policySaved
    requires !env.managedAttached && !env.inlineApplied
    ensures Main(env).exitCode == 1 && Main(env).summary.None?
    ensures Main(env).steps[|Main(env).steps| - 1] == PutInlinePolicy(EnvUsername(env).value)
    ensures forall i :: 0 <= i < |Main(env).steps| ==>
      !Main(env).steps[i].VerifyPolicies? && !Main(env).steps[i].TestAccess?
  {
  }

  /**
   * The script fails exactly when an early step fails, the policy file cannot
   * be written, both policy attempts fail, or listing the applied policies raises.
   */
  lemma ExitStatus(env: Environment)
    ensures Main(env).exitCode == 1 <==>
      !ReachesPolicyWork(env) || !PolicyApplied(env) || !env.verifyCompleted
  {
  }

  /** Listing the applied policies can raise after a policy was applied; the script then has no summary. */
  lemma VerifyFailureAfterApply(env: Environment)
    requires ReachesPolicyWork(env) && PolicyApplied(env) && !env.verifyCompleted
    ensures Main(env).exitCode == 1 && Main(env).summary.None?
    ensures var user := EnvUsername(env).value;
      Main(env).steps[|Main(env).steps| - 1] == VerifyPolicies(user)
  {
  }

  /** A successful run reports the access test's tri-state outcome, after verifying and testing. */
  lemma SuccessfulRunSummary(env: Environment)
    requires Main(env).exitCode == 0
    ensures Main(env).summary == Some(SummaryOf(env.testResult))
    ensures Main(env).steps[|Main(env).steps| - 1] == TestAccess
    ensures ReachesPolicyWork(env) && PolicyApplied(env) && env.verifyCompleted
  {
  }
}

=== FILE: tool_calling.dfy ===
/**
 * The tool-calling round trip of the demo: one request carrying the CPF tool
 * declaration, and, when the model stops to use a tool, local execution of
 * every CPF tool use followed by exactly one more request whose answer is final.
 *
 * The inference endpoint is abstract: a total function from the request it is
 * sent to the response it returns, or None when the call (or the decoding of
 * its body) raises.
 */
module ToolCalling {
  import opened Wrappers
  import Cpf

  datatype Role = User | Assistant

  /** A JSON value in a tool's input; the CPF tool can only handle strings. */
  datatype JsonValue = JsonString(s: string) | JsonOther

  /** One block of message content, tagged by its `type` field. */
  datatype ContentBlock =
    | Text(text: string)
    | ToolUse(id: string, name: string, input: map<string, JsonValue>)
    | ToolResult(toolUseId: string, content: string)
    | Other(kind: string)

  /** A message's content: a plain string (the user's question) or a list of blocks. */
  datatype MessageContent = Plain(text: string) | Blocks(blocks: seq<ContentBlock>)

  datatype Message = Message(role: Role, content: MessageContent)

  /** A tool declaration: name, description and its single string parameter. */
  datatype ToolSpec = ToolSpec(
    name: string,
    description: string,
    parameter: string,
    parameterDescription: string,
    required: seq<string>)

  /** The request body sent to the endpoint. */
  datatype Request = Request(
    modelId: string,
    anthropicVersion: string,
    maxTokens: nat,
    tools: seq<ToolSpec>,
    messages: seq<Message>)

  /** A decoded response body; a missing `content` field is the empty list. */
  datatype Response = Response(stopReason: Option<string>, content: seq<ContentBlock>)

  /** What one invocation did: the requests sent, in order, and its return value. */
  datatype Exchange = Exchange(requests: seq<Request>, answer: Option<string>)

  type Endpoint = Request -> Option<Response>

  const CpfToolName: string := "cpf_to_username"
  const ToolUseStop: string := "tool_use"
  const ModelId: string := "anthropic.claude-3-sonnet-20240229-v1:0"
  const AnthropicVersion: string := "bedrock-2023-05-31"
  const MaxTokens: nat := 500

  const CpfTool: ToolSpec := ToolSpec(
    CpfToolName,
    "Converts a Brazilian CPF (Cadastro de Pessoas Físicas) number to the full name of the person. "
      + "The CPF can be provided with or without formatting (dots and dashes).",
    "cpf",
    "The CPF number to look up. Can be formatted (e.g., 123.456.789-00) or unformatted (e.g., 12345678900)",
    ["cpf"])

  /** The first request: the tool declaration and the user's question as a plain string. */
  function FirstRequest(userMessage: string): (q: Request)
    ensures q.tools == [CpfTool] && q.maxTokens == 500
    ensures |q.messages| == 1 && q.messages[0].role == User
    ensures q.messages[0].content == Plain(userMessage)
  {
    Request(ModelId, AnthropicVersion, MaxTokens, [CpfTool], [Message(User, Plain(userMessage))])
  }

  predicate IsCpfToolUse(b: ContentBlock) {
    b.ToolUse? && b.name == CpfToolName
  }

  /**
   * The `cpf` argument of a tool use, or the empty string when it is absent.
   * None when the argument is not a string: the CPF tool raises on any such
   * value (a hash or an iteration of it fails).
   */
  function CpfArgument(input: map<string, JsonValue>): (cpf: Option<string>)
    ensures "cpf" !in input ==> cpf == Some("")
    ensures "cpf" in input ==> (cpf.Some? <==> input["cpf"].JsonString?)
    ensures "cpf" in input && input["cpf"].JsonString? ==> cpf == Some(input["cpf"].s)
  {
    if "cpf" !in input then Some("")
    else match input["cpf"]
      case JsonString(s) => Some(s)
      case JsonOther => None
  }

  /** The CPF tool runs without raising on this block, or the block is not a CPF tool use. */
  predicate Runs(b: ContentBlock) {
    IsCpfToolUse(b) ==> CpfArgument(b.input).Some?
  }

  /** Every CPF tool use among the blocks has a string argument, so no tool call raises. */
  predicate ToolsRun(blocks: seq<ContentBlock>) {
    forall b :: b in blocks ==> Runs(b)
  }

  /** Runs the CPF tool for one tool-use block and wraps its answer as a tool result. */
  function Execute(b: ContentBlock): (r: ContentBlock)
    requires b.ToolUse? && CpfArgument(b.input).Some?
    ensures r.ToolResult? && r.toolUseId == b.id
    ensures r.content == Cpf.CpfToUsername(CpfArgument(b.input).value)
  {
    ToolResult(b.id, Cpf.CpfToUsername(CpfArgument(b.input).value))
  }

  /** The ids of all tool-use blocks, whatever tool they name, in order. */
  function ToolUseIds(blocks: seq<ContentBlock>): (ids: seq<string>)
    ensures |ids| <= |blocks|
  {
    if |blocks| == 0 then []
    else if blocks[0].ToolUse? then [blocks[0].id] + ToolUseIds(blocks[1..])
    else ToolUseIds(blocks[1..])
  }

  /** The tool-use blocks that name the CPF tool, in order. */
  function CpfToolUses(blocks: seq<ContentBlock>): (uses: seq<ContentBlock>)
    ensures |uses| <= |blocks|
    ensures forall b :: b in uses <==> b in blocks && IsCpfToolUse(b)
  {
    if |blocks| == 0 then []
    else if IsCpfToolUse(blocks[0]) then [blocks[0]] + CpfToolUses(blocks[1..])
    else CpfToolUses(blocks[1..])
  }

  /**
   * The tool results for a response's blocks: one per CPF tool use, in
   * order; every other block, including tool uses of other names, is skipped.
   */
  function ToolResults(blocks: seq<ContentBlock>): (results: seq<ContentBlock>)
    requires ToolsRun(blocks)
    ensures |results| <= |blocks|
    ensures forall i :: 0 <= i < |results| ==>
      results[i].ToolResult? && results[i].toolUseId in ToolUseIds(blocks)
    ensures (forall i :: 0 <= i < |blocks| ==> !IsCpfToolUse(blocks[i])) ==> results == []
  {
    if |blocks| == 0 then []
    else
      assert blocks[0] in blocks;
      ToolsRunTail(blocks);
      if IsCpfToolUse(blocks[0]) then [Execute(blocks[0])] + ToolResults(blocks[1..])
      else ToolResults(blocks[1..])
  }

  /** Dropping the first block keeps every remaining tool call runnable. */
  lemma ToolsRunTail(blocks: seq<ContentBlock>)
    requires |blocks| > 0 && ToolsRun(blocks)
    ensures ToolsRun(blocks[1..])
  {
    forall b | b in blocks[1..]
      ensures Runs(b)
    {
      var i :| 0 <= i < |blocks[1..]| && blocks[1..][i] == b;
      assert blocks[i + 1] == b;
    }
  }

  /** The concatenated text of the text blocks, in order. */
  function FinalText(blocks: seq<ContentBlock>): (s: string)
    ensures (forall i :: 0 <= i < |blocks| ==> !blocks[i].Text?) ==> s == ""
    ensures forall i :: 0 <= i < |blocks| && blocks[i].Text? ==> |blocks[i].text| <= |s|
  {
    if |blocks| == 0 then ""
    else if blocks[0].Text? then blocks[0].text + FinalText(blocks[1..])
    else FinalText(blocks[1..])
  }

  /** The conversation of the second request: the assistant's blocks verbatim, then all tool results. */
  function SecondRequest(first: Request, response: Response): (q: Request)
    requires ToolsRun(response.content)
    ensures |q.messages| == |first.messages| + 2
    ensures q.messages[..|first.messages|] == first.messages
  {
    first.(messages := first.messages + [
      Message(Assistant, Blocks(response.content)),
      Message(User, Blocks(ToolResults(response.content)))])
  }

  /**
   * One invocation: a first call; if it stopped for tool use, a second call
   * with the tool results; the text of the last response is the answer.
   * A failed call, or a CPF tool use whose argument is not a string, makes
   * the answer None.
   */
  function InvokeModelWithTools(userMessage: string, endpoint: Endpoint): (e: Exchange)
    ensures 1 <= |e.requests| <= 2
    ensures e.requests[0] == FirstRequest(userMessage)
    ensures |e.requests| == 2 <==>
      endpoint(FirstRequest(userMessage)).Some? &&
      endpoint(FirstRequest(userMessage)).value.stopReason == Some(ToolUseStop) &&
      ToolsRun(endpoint(FirstRequest(userMessage)).value.content)
    ensures e.answer.Some? <==>
      (forall i :: 0 <= i < |e.requests| ==> endpoint(e.requests[i]).Some?) &&
      (|e.requests| == 2 || endpoint(e.requests[0]).value.stopReason != Some(ToolUseStop))
  {
    var first := FirstRequest(userMessage);
    match endpoint(first)
    case None => Exchange([first], None)
    case Some(r1) =>
      if r1.stopReason == Some(ToolUseStop) && !ToolsRun(r1.content) then
        Exchange([first], None)
      else if r1.stopReason == Some(ToolUseStop) then
        var second := SecondRequest(first, r1);
        match endpoint(second)
        case None =>
          var e := Exchange([first, second], None);
          assert endpoint(e.requests[1]).None?;
          e
        case Some(r2) => Exchange([first, second], Some(FinalText(r2.content)))
      else
        Exchange([first], Some(FinalText(r1.content)))
  }

  // ---------------------------------------------------------------------
  // Tool results
  // ---------------------------------------------------------------------

  predicate Distinct(ids: seq<string>) {
    forall i, j :: 0 <= i < j < |ids| ==> ids[i] != ids[j]
  }

  /** The CPF tool uses of a concatenation are those of each part, in order. */
  lemma {:induction false} CpfToolUsesAppend(a: seq<ContentBlock>, b: seq<ContentBlock>)
    ensures CpfToolUses(a + b) == CpfToolUses(a) + CpfToolUses(b)
    decreases |a|
  {
    if |a| == 0 {
      assert a + b == b;
    } else {
      assert (a + b)[0] == a[0];
      assert (a + b)[1..] == a[1..] + b;
      CpfToolUsesAppend(a[1..], b);
    }
  }

  /** A single block is selected exactly when it is a CPF tool use. */
  lemma CpfToolUsesBlock(b: ContentBlock)
    ensures CpfToolUses([b]) == if IsCpfToolUse(b) then [b] else []
  {
    assert [b][1..] == [];
  }

  /** Both parts of a concatenation whose tools run have tools that run. */
  lemma ToolsRunAppend(a: seq<ContentBlock>, b: seq<ContentBlock>)
    ensures ToolsRun(a + b) <==> ToolsRun(a) && ToolsRun(b)
  {
    forall x | x in a ensures x in a + b { }
    forall x | x in b ensures x in a + b { }
  }

  /** Tool results of a concatenation are the concatenation of the tool results: order is kept. */
  lemma {:induction false} ToolResultsAppend(a: seq<ContentBlock>, b: seq<ContentBlock>)
    requires ToolsRun(a) && ToolsRun(b)
    ensures ToolsRun(a + b)
    ensures ToolResults(a + b) == ToolResults(a) + ToolResults(b)
    decreases |a|
  {
    ToolsRunAppend(a, b);
    if |a| == 0 {
      assert a + b == b;
    } else {
      assert (a + b)[0] == a[0];
      assert (a + b)[1..] == a[1..] + b;
      ToolsRunTail(a);
      ToolResultsAppend(a[1..], b);
    }
  }

  /**
   * The results correspond one to one, in order, with the CPF tool uses:
   * the i-th result answers the i-th CPF tool use, carrying its id and the
   * CPF tool's answer for its `cpf` argument.
   */
  lemma {:induction false} ToolResultsMatchCpfUses(blocks: seq<ContentBlock>)
    requires ToolsRun(blocks)
    ensures |ToolResults(blocks)| == |CpfToolUses(blocks)|
    ensures forall i :: 0 <= i < |ToolResults(blocks)| ==>
      CpfToolUses(blocks)[i] in blocks &&
      ToolResults(blocks)[i] == Execute(CpfToolUses(blocks)[i])
  {
    if |blocks| > 0 {
      ToolsRunTail(blocks);
      ToolResultsMatchCpfUses(blocks[1..]);
    }
  }

  /** Every CPF tool use of the response is answered by a result carrying its id. */
  lemma {:induction false} EveryCpfUseAnswered(blocks: seq<ContentBlock>)
    requires ToolsRun(blocks)
    ensures forall i :: 0 <= i < |blocks| && IsCpfToolUse(blocks[i]) ==>
      blocks[i] in blocks && Execute(blocks[i]) in ToolResults(blocks)
  {
    if |blocks| > 0 {
      ToolsRunTail(blocks);
      EveryCpfUseAnswered(blocks[1..]);
      forall i | 0 <= i < |blocks| && IsCpfToolUse(blocks[i])
        ensures blocks[i] in blocks && Execute(blocks[i]) in ToolResults(blocks)
      {
        if i > 0 {
          assert blocks[i] == blocks[1..][i - 1];
        }
      }
    }
  }

  /** When the response's tool-use ids are distinct, so are the ids its results answer. */
  lemma {:induction false} ResultIdsDistinct(blocks: seq<ContentBlock>)
    requires ToolsRun(blocks)
    requires Distinct(ToolUseIds(blocks))
    ensures forall i, j :: 0 <= i < j < |ToolResults(blocks)| ==>
      ToolResults(blocks)[i].toolUseId != ToolResults(blocks)[j].toolUseId
  {
    if |blocks| > 0 {
      var rest := blocks[1..];
      var ids := ToolUseIds(blocks);
      if blocks[0].ToolUse? {
        assert ids == [blocks[0].id] + ToolUseIds(rest);
        assert Distinct(ToolUseIds(rest)) by {
          forall i, j | 0 <= i < j < |ToolUseIds(rest)|
            ensures ToolUseIds(rest)[i] != ToolUseIds(rest)[j]
          {
            assert ids[i + 1] != ids[j + 1];
          }
        }
        assert blocks[0].id !in ToolUseIds(rest) by {
          forall j | 0 <= j < |ToolUseIds(rest)|
            ensures ToolUseIds(rest)[j] != blocks[0].id
          {
            assert ids[0] != ids[j + 1];
          }
        }
      } else {
        assert ids == ToolUseIds(rest);
      }
      ToolsRunTail(blocks);
      ResultIdsDistinct(rest);
    }
  }

  // ---------------------------------------------------------------------
  // Final text
  // ---------------------------------------------------------------------

  /** The final text of a concatenation is the concatenation of the final texts: order is kept. */
  lemma {:induction false} FinalTextAppend(a: seq<ContentBlock>, b: seq<ContentBlock>)
    ensures FinalText(a + b) == FinalText(a) + FinalText(b)
    decreases |a|
  {
    if |a| == 0 {
      assert a + b == b;
    } else {
      assert (a + b)[0] == a[0];
      assert (a + b)[1..] == a[1..] + b;
      FinalTextAppend(a[1..], b);
    }
  }

  /** A single block contributes its text if it is a text block and nothing otherwise. */
  lemma FinalTextBlock(b: ContentBlock)
    ensures FinalText([b]) == if b.Text? then b.text else ""
  {
    assert [b][1..] == [];
  }

  // ---------------------------------------------------------------------
  // The round trip
  // ---------------------------------------------------------------------

  /**
   * A first response that does not stop for tool use is final: exactly one
   * call, the conversation is the user's question alone, and the answer is
   * its text.
   */
  lemma SingleCallWithoutToolUse(userMessage: string, endpoint: Endpoint)
    requires endpoint(FirstRequest(userMessage)).Some?
    requires endpoint(FirstRequest(userMessage)).value.stopReason != Some(ToolUseStop)
    ensures InvokeModelWithTools(userMessage, endpoint).requests == [FirstRequest(userMessage)]
    ensures InvokeModelWithTools(userMessage, endpoint).requests[0].messages
         == [Message(User, Plain(userMessage))]
    ensures InvokeModelWithTools(userMessage, endpoint).answer
         == Some(FinalText(endpoint(FirstRequest(userMessage)).value.content))
  {
  }

  /**
   * A first response that stops for tool use leads to exactly one more call
   * whose request differs from the first only in its messages: two are
   * appended, the assistant's blocks verbatim and then a single user
   * message with all tool results (possibly none). The second response is
   * final whatever its own stop reason.
   */
  lemma ToolUseRoundTrip(userMessage: string, endpoint: Endpoint)
    requires endpoint(FirstRequest(userMessage)).Some?
    requires endpoint(FirstRequest(userMessage)).value.stopReason == Some(ToolUseStop)
    requires ToolsRun(endpoint(FirstRequest(userMessage)).value.content)
    ensures var e := InvokeModelWithTools(userMessage, endpoint);
      var r1 := endpoint(FirstRequest(userMessage)).value;
      && |e.requests| == 2
      && e.requests[1].messages == e.requests[0].messages + [
           Message(Assistant, Blocks(r1.content)),
           Message(User, Blocks(ToolResults(r1.content)))]
      && e.requests[1] == e.requests[0].(messages := e.requests[1].messages)
      && (endpoint(e.requests[1]).Some? ==>
            e.answer == Some(FinalText(endpoint(e.requests[1]).value.content)))
  {
  }

  /**
   * A CPF tool use whose argument is not a string raises after the first
   * call and before the second: one call is made and the answer is None.
   */
  lemma ToolFailureMeansNone(userMessage: string, endpoint: Endpoint)
    requires endpoint(FirstRequest(userMessage)).Some?
    requires endpoint(FirstRequest(userMessage)).value.stopReason == Some(ToolUseStop)
    requires exists b ::
      && b in endpoint(FirstRequest(userMessage)).value.content
      && IsCpfToolUse(b) && "cpf" in b.input && b.input["cpf"] == JsonOther
    ensures InvokeModelWithTools(userMessage, endpoint) == Exchange([FirstRequest(userMessage)], None)
  {
  }

  /**
   * The answer is None exactly when the last call made failed or, after a
   * first call stopping for tool use, the tools raised; no call is retried.
   */
  lemma FailureMeansNone(userMessage: string, endpoint: Endpoint)
    ensures endpoint(FirstRequest(userMessage)).None? ==>
      InvokeModelWithTools(userMessage, endpoint) == Exchange([FirstRequest(userMessage)], None)
    ensures var e := InvokeModelWithTools(userMessage, endpoint);
      var last := endpoint(e.requests[|e.requests| - 1]);
      e.answer.None? <==> last.None? || (|e.requests| == 1 && last.value.stopReason == Some(ToolUseStop))
  {
  }

  /**
   * The CPF scenario: the model asks for one CPF, then answers in text.
   * Two calls are made, the second carries the tool result for the tool
   * use's id, and the answer is the second response's text.
   */
  lemma CpfScenario()
    ensures var use := ToolUse("toolu_1", CpfToolName, map["cpf" := JsonString(Cpf.Formatted("123", "456", "789", "00"))]);
      var endpoint: Endpoint := (q: Request) =>
        if |q.messages| == 1 then Some(Response(Some(ToolUseStop), [use]))
        else Some(Response(Some("end_turn"), [Text("The person is João da Silva.")]));
      var e := InvokeModelWithTools("Who has CPF 123.456.789-00?", endpoint);
      && |e.requests| == 2
      && e.requests[1].messages[2] == Message(User, Blocks([ToolResult("toolu_1", "João da Silva")]))
      && e.answer == Some("The person is João da Silva.")
  {
    var use := ToolUse("toolu_1", CpfToolName, map["cpf" := JsonString(Cpf.Formatted("123", "456", "789", "00"))]);
    assert ToolsRun([use]);
    assert ToolResults([use]) == [Execute(use)];
    Cpf.DemonstrationLookups();
    FinalTextBlock(Text("The person is João da Silva."));
  }
}

=== FILE: wrappers.dfy ===
/** Optional values: the model's stand-in for Python's `None`. */
module Wrappers {

  datatype Option<+T> = None | Some(value: T)
}
